=== FILE: README.md ===
# Side Quests: overlay lifecycle, submit guard, configuration and delivery outcomes

Side Quests is a macOS menu-bar utility. A global shortcut or the status-bar
button summons a floating one-line panel. The user types a short message and
presses Return. The panel hides at once and the text is posted as JSON to a
server. This project models the logic under that flow as immutable records and
pure transition functions, and proves what each step promises.

- `Text`: trimming with Foundation's `whitespacesAndNewlines` set. `Trim` is
  proved against a declarative reference (`IsTrimOf`), the reference is proved
  to have one answer only, and trimming is proved idempotent.
- `SearchBar`: the hosted text field, with `text`, the guarded `handleSubmit`,
  and the `panelWillShow` handler that clears the field.
- `FloatingPanel`: the panel record. It holds visibility, the local and global
  monitor handles, the system's set of live monitors, the number of
  `panelWillShow` notifications posted, the list of texts dispatched for
  delivery, and the field. `Show`, `Hide`, `Submit`, the Escape key monitor and
  the mouse-down monitor are transitions on it. The model follows the code:
  `Show` checks nothing and overwrites the handles. A monitor whose handle was
  overwritten stays live and keeps calling `hidePanel`.
- `AppDelegate`: the optional panel, `togglePanel`, the menu's `showPanel`,
  and the status-item dispatch. `Step` and `Run` drive the whole application
  from a sequence of inputs: hotkey, status click, menu "Show", key-down,
  mouse-down elsewhere, edit, Return, and another application becoming
  active. The panel never sets `hidesOnDeactivate`, and an `NSPanel` hides on
  deactivation by default. So deactivation is an input that orders the panel
  out without `hidePanel`, leaving its monitors installed.
- `Config`: the `webhookURL` precedence. A usable Info.plist value comes first,
  then a non-empty environment value, then the placeholder.
- `Http`, `DiscordService`, `SideQuestService`: the `{text, secret}` payload,
  the single POST, and how each service turns the transport result into a log
  outcome. The two services classify differently. 201 counts as success only
  in `SideQuestService`. 401 is singled out only in `DiscordService`.

The model follows the code as written:
- Showing an already visible panel is not a no-op. It posts a second
  `panelWillShow` and installs a second pair of monitors.
- Showing a panel that was ordered out by deactivation installs a new pair
  while the old pair is still live.
- `DiscordService` treats only 200 as success, not every 2xx.
- The placeholder URL does not stop delivery. `Config.webhookURL` is not read
  by either service.
- No position is stored or restored.

## Model

| member | source | states |
|---|---|---|
| Text.Trim | SideQuests/SearchBarView.swift:51 | the result has no whitespace at either end, is the reference trimming of the input, and is empty exactly when the input is all whitespace or empty |
| Text.LeadingWhitespace | SideQuests/SearchBarView.swift:51 | the count is the longest all-whitespace prefix: every character before it is whitespace and the next one is not |
| Text.TrailingWhitespace | SideQuests/SearchBarView.swift:51 | the count is the longest all-whitespace suffix |
| Text.TrimUnique | SideQuests/SearchBarView.swift:51 | at most one string is a trimming of a given string, so the reference fixes what trimming returns |
| Text.TrimBare | SideQuests/FloatingPanel.swift:117-118 | a string with no edge whitespace is returned unchanged by trimming |
| Text.TrimIdempotent | SideQuests/FloatingPanel.swift:117-118 | trimming twice is trimming once |
| SearchBar.HandleSubmit | SideQuests/SearchBarView.swift:50-55 | blank text calls nothing and leaves the field as it was; other text calls back once with its trimming and leaves the field empty |
| SearchBar.OnPanelWillShow | SideQuests/SearchBarView.swift:39-42 | receiving `panelWillShow` leaves the field empty |
| SearchBar.ForwardedPassesPanelGuard | SideQuests/SearchBarView.swift:51-53 | what the field hands on is non-empty, has no edge whitespace, and is unchanged by the panel's own trim |
| FloatingPanel.Show | SideQuests/FloatingPanel.swift:82-91 | the panel is visible, the key-down handle holds a key-down monitor and the mouse-down handle a mouse-down monitor, the live set grows by exactly the two handles, one more `panelWillShow` was posted, the field is empty, nothing is dispatched |
| FloatingPanel.Hide | SideQuests/FloatingPanel.swift:93-98 | the panel is hidden, both handles are empty, exactly the monitors the handles held are removed, and nothing else changes |
| FloatingPanel.RemoveMonitors | SideQuests/FloatingPanel.swift:145-148 | both handles are empty, exactly the monitors they held are removed, and visibility, the field and everything else are unchanged |
| FloatingPanel.Deactivate | SideQuests/FloatingPanel.swift:31-38 | another application becoming active orders the panel out, since `hidesOnDeactivate` is left at its default; the handles and the live monitors are unchanged because `hidePanel` does not run |
| FloatingPanel.ShowReinstalling | SideQuests/FloatingPanel.swift:127-143 | corrected show: the panel is visible, the key-down handle holds a key-down monitor and the mouse-down handle a mouse-down monitor, the monitors the old handles held are removed and exactly the new handles are added, one more `panelWillShow` is posted and the field is empty |
| FloatingPanel.Submit | SideQuests/FloatingPanel.swift:116-123 | blank text leaves the state unchanged; other text hides the panel, empties both handles, removes exactly the monitors they held, keeps the field, the id counter and the `panelWillShow` count, and appends exactly the trimmed text to the dispatched list |
| FloatingPanel.LocalKeyDown | SideQuests/FloatingPanel.swift:129-135 | while a key-down monitor is live, key code 53 is consumed and the panel is hidden; every other key is passed on unchanged with the state untouched |
| FloatingPanel.HideIdempotent | SideQuests/FloatingPanel.swift:145-148 | a second hide removes no monitor and changes nothing |
| FloatingPanel.RepeatHideIsHide | SideQuests/FloatingPanel.swift:138-142 | however many live monitors call `hidePanel`, the effect is exactly one hide |
| FloatingPanel.GlobalMouseDown | SideQuests/FloatingPanel.swift:137-142 | a left or right mouse-down elsewhere is exactly a hide while a mouse-down monitor is live; any other event, or no live monitor, changes nothing |
| FloatingPanel.ShowInstallsFresh | SideQuests/FloatingPanel.swift:127-143 | the two monitors installed were never live before, so the live set grows by two |
| FloatingPanel.ShowHideRestoresLive | SideQuests/FloatingPanel.swift:82-98 | from a state with no handles, show then hide leaves the live monitors as they were and the panel hidden |
| FloatingPanel.ShowShowHideLeaks | SideQuests/FloatingPanel.swift:127-143 | show, show, hide leaves the first pair of monitors live and posts two `panelWillShow` notifications |
| FloatingPanel.ShowVisibleBreaksClean | SideQuests/FloatingPanel.swift:127-143 | showing a visible panel breaks "monitors installed exactly while visible" |
| FloatingPanel.CleanHide | SideQuests/FloatingPanel.swift:145-148 | hiding a panel whose only live monitors are its own leaves no monitor live |
| FloatingPanel.CleanShowHidden | SideQuests/FloatingPanel.swift:82-91 | showing a hidden, clean panel installs exactly one pair, matching its handles |
| FloatingPanel.CleanEvents | SideQuests/FloatingPanel.swift:116-148 | submit, the Escape monitor and the mouse-down monitor keep a clean panel clean |
| FloatingPanel.DeactivateThenShowLeaks | SideQuests/FloatingPanel.swift:82-91 | deactivating a clean visible panel hides it with its monitors still installed, and the next show leaves a live monitor that no handle holds |
| FloatingPanel.NoLeakPreserved | SideQuests/FloatingPanel.swift:93-148 | when every live monitor is held by a handle, hide, deactivation, the corrected show, submit, the Escape monitor and the mouse-down monitor keep it so |
| FloatingPanel.DispatchedPayloadIsTrimmed | SideQuests/FloatingPanel.swift:116-122 | the text a submit dispatches becomes the payload's `text` unchanged, and it is non-empty and trimmed |
| AppDelegate.TogglePanel | SideQuests/AppDelegate.swift:79-85 | a visible panel gets exactly a hide, a hidden one exactly a show, and with no panel nothing happens |
| AppDelegate.ShowPanel | SideQuests/AppDelegate.swift:75-77 | the menu's show forwards to the panel's show with no visibility check; with no panel nothing happens |
| AppDelegate.StatusItemClicked | SideQuests/AppDelegate.swift:41-48 | no current event changes nothing; a right mouse-up opens the menu and leaves the panel alone; any other current event is exactly a toggle |
| AppDelegate.ToggleTwiceRestoresVisibility | SideQuests/AppDelegate.swift:79-85 | two toggles give back the original visibility |
| AppDelegate.ToggleParity | SideQuests/AppDelegate.swift:89-93 | after n hotkey presses the panel's visibility is flipped exactly when n is odd |
| AppDelegate.EnterPressed | SideQuests/FloatingPanel.swift:56-60 | Return on blank text changes nothing; on other text the field's submit calls back into the panel's submit: the panel is hidden, both handles are empty, exactly their monitors are removed, the id counter and the `panelWillShow` count are kept, the field is empty and exactly the trimmed text is appended to the dispatched list |
| AppDelegate.ForwardedSubmit | SideQuests/FloatingPanel.swift:56-60 | the text the field forwards is the trimming of its contents, and the panel's submit of it is exactly a hide plus appending that text |
| AppDelegate.StepKeepsClean | SideQuests/AppDelegate.swift:79-85 | every input except the menu's "Show" and deactivation keeps monitors installed exactly while the panel is visible |
| AppDelegate.RunKeepsClean | SideQuests/AppDelegate.swift:75-93 | a run with no menu "Show" and no deactivation keeps monitors installed exactly while the panel is visible, so those two inputs are the only ways the application as written leaks |
| AppDelegate.StepKeepsWellformed | SideQuests/AppDelegate.swift:75-85 | every input, in the application as written and in the corrected one, keeps the handles among the live monitors, each handle of the right kind, and every live id below the next fresh one |
| AppDelegate.RunKeepsWellformed | SideQuests/AppDelegate.swift:75-93 | every input sequence keeps a well-formed application well formed, as written and corrected |
| AppDelegate.LaunchedRunsWellformed | SideQuests/AppDelegate.swift:71-73 | after launch the panel exists and stays well formed under every input sequence |
| AppDelegate.MenuShowTwiceLeaks | SideQuests/AppDelegate.swift:75-77 | "Show" twice then the hotkey leaves a hidden panel with both handles empty and two live monitors, one key-down and one mouse-down, so neither is held by a handle; Escape is still swallowed |
| AppDelegate.DeactivateHotkeyLeaks | SideQuests/FloatingPanel.swift:82-98 | hotkey, switch to another application, hotkey, hotkey leaves a hidden panel with both handles empty and two live monitors, one key-down and one mouse-down, so neither is held by a handle |
| AppDelegate.TogglePanelCorrected | SideQuests/AppDelegate.swift:79-85 | corrected toggle: a visible panel is hidden as before; a hidden one is shown after removing the monitors its handles still hold |
| AppDelegate.ShowPanelCorrected | SideQuests/AppDelegate.swift:75-77 | corrected menu show: the panel is shown after removing the monitors its handles still hold |
| AppDelegate.StepCorrectedKeepsNoLeak | SideQuests/FloatingPanel.swift:127-148 | with the corrected show paths, every input keeps every live monitor held by a handle |
| AppDelegate.CorrectedRunNoLeak | SideQuests/FloatingPanel.swift:127-148 | in the corrected application no input sequence, deactivation included, leaves a live monitor that no handle holds |
| AppDelegate.CorrectedSequencesAreClean | SideQuests/FloatingPanel.swift:127-148 | the corrected application runs both leaking sequences to a hidden panel with no live monitor |
| Config.WebhookUrl | SideQuests/Config.swift:15-31 | the result is never empty; the plist is the source exactly when its value is usable, the environment exactly when the plist is not usable and the environment value is non-empty, the placeholder exactly when neither is usable; each source supplies its own value |
| Config.PlistOverridesEnv | SideQuests/Config.swift:17-21 | a usable plist value is returned whatever the environment holds |
| Config.RejectedPlistNeverUsed | SideQuests/Config.swift:17-27 | an absent, empty or unexpanded plist value is never the source, and a non-empty environment value is then used |
| Config.ResolvedIsCandidate | SideQuests/Config.swift:15-31 | the URL is the plist value, the environment value or the placeholder |
| Http.Payload | SideQuests/DiscordService.swift:20-23 | the payload has exactly the keys `text` and `secret`, holding the message and the secret unchanged |
| Http.JsonPost | SideQuests/DiscordService.swift:15-18 | the request is a JSON POST to the given URL with a ten-second timeout and the given body |
| Http.PayloadRoundTrip | SideQuests/SideQuestService.swift:19 | two payloads are equal exactly when their texts and secrets are equal |
| DiscordService.Classify | SideQuests/DiscordService.swift:29-38 | 200 and only 200 is Sent with the message, 401 and only 401 is Unauthorized, every other code, 201 included, is Status carrying that code |
| DiscordService.ClassifyInjective | SideQuests/DiscordService.swift:30-37 | distinct status codes give distinct outcomes |
| DiscordService.Post | SideQuests/DiscordService.swift:9-42 | a URL that does not parse issues no request and logs a bad URL; otherwise exactly one request is issued, the ten-second JSON POST of `{text, secret}` to that URL; a transport error logs a network error, an HTTP response logs its classification, and a non-HTTP response logs nothing |
| SideQuestService.Classify | SideQuests/SideQuestService.swift:25-35 | 200 or 201 with a channel logs Created with it, 200 or 201 without one logs nothing, every other code, 401 included, is a server error with that code |
| SideQuestService.Post | SideQuests/SideQuestService.swift:11-39 | an endpoint that does not parse issues nothing and logs nothing; otherwise exactly one request, the ten-second JSON POST of the text and the fixed secret to the fixed endpoint; a transport error logs a network error, an HTTP response logs its classification, and a non-HTTP response logs nothing |
| SideQuestService.DisagreesWithDiscord | SideQuests/SideQuestService.swift:26-33 | for every status: 201 is success here but a plain status for the other service, 401 is a server error here but Unauthorized there, every other code except 200 is an error carrying the code in both, and both count a status as success exactly when it is 200 |
| SideQuestService.SilentPost | SideQuests/SideQuestService.swift:12-35 | the post logs nothing exactly when the endpoint does not parse, the response is not HTTP, or a 200 or 201 comes without a string channel |
| SideQuestService.CreatedOnlyOnSuccess | SideQuests/SideQuestService.swift:25-31 | a logged channel comes only from a parsed endpoint and a 200 or 201 response, and it is the channel the body named |

## Findings

| source | as written | input that shows it | evidently intended | confidence | as-written member | corrected member |
|---|---|---|---|---|---|---|
| SideQuests/FloatingPanel.swift:127-143 | `installEventMonitors` overwrites the monitor handles without removing the monitors they held, and `showPanel` runs it for a panel that is visible (the menu's "Show", SideQuests/AppDelegate.swift:75-77) or that was ordered out by deactivation | from launch: menu "Show", menu "Show", hotkey; or hotkey, switch to another application, hotkey, hotkey. Either way the panel is hidden but a key-down and a mouse-down monitor stay live with no handle, so clicks elsewhere keep calling `hidePanel` and Escape is swallowed whenever the application receives key events | installing removes whatever the handles still hold, so every live monitor is one the panel can remove | medium, not executed | AppDelegate.MenuShowTwiceLeaks | AppDelegate.CorrectedRunNoLeak |

`Step` and `Run` keep the code as written, so the rest of the model describes
the application as it is; `DeactivateHotkeyLeaks` is the second input of the
finding. `ShowReinstalling`, `TogglePanelCorrected`, `ShowPanelCorrected`,
`StepCorrected` and `RunCorrected` are the corrected application, and
`CorrectedRunNoLeak` proves for every input sequence that it never leaves a
live monitor without a handle.

## Left out

- Window construction, blur, corner styling, `NSHostingView` layout, and the SwiftUI view body and animation: presentation only.
- `centerOnActiveScreen`: floating-point screen arithmetic. The frame is not part of the state.
- Position persistence: the code has none.
- `makeKeyAndOrderFront`, `orderOut` and `NSApp.activate`: reduced to the `visible` flag. Returning focus to the previous application is the platform's job.
- The 0.05-second delayed focus claim in the `panelWillShow` handler: a timing side effect. Only the clearing of `text` is modelled.
- Reactivation: AppKit shows a window hidden on deactivation again when the application becomes active without going through `showPanel`. That path is not an input; the hotkey, the status item and the menu all reach the panel through `showPanel`, which is modelled.
- `NSEvent` monitor registration failing and returning nil: every installation is modelled as succeeding. The system hands out fresh handles, modelled by a counter.
- Editing in the text field: an `Edit` input replaces the whole text. Single keystrokes are not modelled.
- `URLSession` I/O, `JSONSerialization`, `JSONEncoder`, JSON body parsing and `URL(string:)`: foreign calls. "URL parses", "transport result" and "the body has a string `channel`" are inputs. Encoding a string-to-string map cannot fail, so that error path is not modelled.
- `Task` and `actor` concurrency: a dispatched text is appended to the panel's list synchronously after the hide. The delivery outcome never flows back into panel state.
- Log output: each log line is an outcome value. The message wording is not modelled.
- `Config.sqServerURL` and `Config.sqServerSecret` are referenced by `DiscordService` but defined in none of the modelled files; SideQuests/Config.swift defines only `placeholderURL` and `webhookURL`. They are parameters of `DiscordService.Post`.
- Config.WebhookUrl: compares the plist value with the literal `$(DISCORD_WEBHOOK_URL)` character by character. Swift's `String` equality uses canonical equivalence (U+212A KELVIN SIGN equals "K", say), which is not modelled.
- `Config.webhookURL` is computed once, lazily, at first use. It is modelled as a pure function of the plist and environment values. A plist entry that is not a string counts as absent.
- `KeyboardShortcuts` registration, status-item and menu construction, and the menu's "Quit": platform presentation and process exit. Only the dispatch decisions are modelled.
- SideQuests/SideQuestsApp.swift: an entry point with no logic.

=== FILE: app_delegate.dfy ===
/**
 * The application delegate: it owns the (optional) panel and decides what the
 * hotkey, the status-bar button and the menu's "Show" item do to it. The whole
 * application is driven by a sequence of inputs through `Step`.
 */
module AppDelegate {

  import opened Wrappers
  import opened Text
  import SearchBar
  import FloatingPanel

  datatype App = App(panel: Option<FloatingPanel.State>)

  /** The type of `NSApp.currentEvent` when the status-bar button fires. */
  datatype EventType = LeftMouseUp | RightMouseUp | OtherEventType

  /** What a status-bar click did. */
  datatype ClickResponse = MenuOpened | PanelToggled | NoCurrentEvent

  datatype ClickResult = ClickResult(app: App, response: ClickResponse)

  /** Everything that can reach the application. */
  datatype Input =
    | Hotkey                                  // the global shortcut's key-up
    | StatusClick(event: Option<EventType>)   // the status-bar button's action
    | MenuShow                                // "Show Side Quests" in the context menu
    | KeyDown(key: FloatingPanel.KeyEvent)    // a key-down inside the application
    | MouseDown(button: FloatingPanel.MouseButton) // a mouse-down in another application
    | Edit(text: string)                      // the user edits the field
    | Enter                                   // the field's submit
    | Deactivate                              // another application becomes active

  /** The application right after launch: a fresh hidden panel. */
  const Launched := App(Some(FloatingPanel.Init))

  function Visible(a: App): bool
  {
    a.panel.Some? && a.panel.value.visible
  }

  /** `togglePanel`: hide when visible, otherwise show; nothing without a panel. */
  function TogglePanel(a: App): (r: App)
    ensures a.panel.None? ==> r == a
    ensures a.panel.Some? && a.panel.value.visible ==>
      r == App(Some(FloatingPanel.Hide(a.panel.value)))
    ensures a.panel.Some? && !a.panel.value.visible ==>
      r == App(Some(FloatingPanel.Show(a.panel.value)))
  {
    match a.panel
    case None => a
    case Some(p) => App(Some(if p.visible then FloatingPanel.Hide(p) else FloatingPanel.Show(p)))
  }

  /** The menu's `showPanel`: forwards to the panel without looking at its visibility. */
  function ShowPanel(a: App): (r: App)
    ensures a.panel.None? ==> r == a
    ensures a.panel.Some? ==> r == App(Some(FloatingPanel.Show(a.panel.value)))
  {
    match a.panel
    case None => a
    case Some(p) => App(Some(FloatingPanel.Show(p)))
  }

  /**
   * `statusItemClicked`: a right mouse-up opens the context menu and leaves the
   * panel alone; any other current event toggles; no current event does nothing.
   */
  function StatusItemClicked(a: App, current: Option<EventType>): (r: ClickResult)
    ensures current.None? ==> r == ClickResult(a, NoCurrentEvent)
    ensures current == Some(RightMouseUp) ==> r == ClickResult(a, MenuOpened)
    ensures current.Some? && current != Some(RightMouseUp) ==> r == ClickResult(TogglePanel(a), PanelToggled)
  {
    match current
    case None => ClickResult(a, NoCurrentEvent)
    case Some(t) => if t == RightMouseUp then ClickResult(a, MenuOpened) else ClickResult(TogglePanel(a), PanelToggled)
  }

  /**
   * Return in the field: the field's submit runs and, on non-blank text, calls
   * back into the panel's submit with the trimmed text, then clears the field.
   */
  function EnterPressed(p: FloatingPanel.State): (r: FloatingPanel.State)
    ensures AllWhitespace(p.view.text) ==> r == p
    ensures !AllWhitespace(p.view.text) ==>
      && !r.visible
      && r.localMonitor.None? && r.globalMonitor.None?
      && r.live == p.live - FloatingPanel.Handles(p)
      && r.nextId == p.nextId && r.willShowPosts == p.willShowPosts
      && r.view.text == []
      && r.posts == p.posts + [Trim(p.view.text)]
  {
    var r := SearchBar.HandleSubmit(p.view);
    match r.forwarded
    case None => p.(view := r.view)
    case Some(t) =>
      ForwardedSubmit(p, t);
      FloatingPanel.Submit(p, t).(view := r.view)
  }

  /** The text the field forwards is the trimming of its contents, and the panel's submit dispatches it as it is. */
  lemma ForwardedSubmit(p: FloatingPanel.State, t: string)
    requires SearchBar.HandleSubmit(p.view).forwarded == Some(t)
    ensures t == Trim(p.view.text)
    ensures FloatingPanel.Submit(p, t) == FloatingPanel.Hide(p).(posts := p.posts + [t])
  {
    TrimIdempotent(p.view.text);
    assert t == Trim(p.view.text) && Trim(t) == t;
  }

  /** What an input does to the panel itself, for the inputs that go straight to it. */
  function PanelStep(p: FloatingPanel.State, i: Input): FloatingPanel.State
    requires i.KeyDown? || i.MouseDown? || i.Edit? || i.Enter? || i.Deactivate?
  {
    match i
    case Deactivate => FloatingPanel.Deactivate(p)
    case KeyDown(e) => FloatingPanel.LocalKeyDown(p, e).state
    case MouseDown(b) => FloatingPanel.GlobalMouseDown(p, b)
    case Edit(t) => p.(view := SearchBar.View(t))
    case Enter => EnterPressed(p)
  }

  function Step(a: App, i: Input): App
  {
    match i
    case Hotkey => TogglePanel(a)
    case StatusClick(e) => StatusItemClicked(a, e).app
    case MenuShow => ShowPanel(a)
    case _ => if a.panel.None? then a else App(Some(PanelStep(a.panel.value, i)))
  }

  function Run(a: App, inputs: seq<Input>): App
    decreases |inputs|
  {
    if inputs == [] then a else Run(Step(a, inputs[0]), inputs[1..])
  }

  // ---------------------------------------------------------------------------
  // Corrected application: showing first removes the monitors the handles hold.

  function TogglePanelCorrected(a: App): (r: App)
    ensures a.panel.None? ==> r == a
    ensures Visible(a) ==> r == TogglePanel(a)
    ensures a.panel.Some? && !Visible(a) ==>
      r == App(Some(FloatingPanel.ShowReinstalling(a.panel.value)))
  {
    match a.panel
    case None => a
    case Some(p) => App(Some(if p.visible then FloatingPanel.Hide(p) else FloatingPanel.ShowReinstalling(p)))
  }

  function ShowPanelCorrected(a: App): (r: App)
    ensures a.panel.None? ==> r == a
    ensures a.panel.Some? ==> r == App(Some(FloatingPanel.ShowReinstalling(a.panel.value)))
  {
    match a.panel
    case None => a
    case Some(p) => App(Some(FloatingPanel.ShowReinstalling(p)))
  }

  /** `Step` with every show path corrected; the other inputs are unchanged. */
  function StepCorrected(a: App, i: Input): App
  {
    match i
    case Hotkey => TogglePanelCorrected(a)
    case StatusClick(e) =>
      if e.Some? && e != Some(RightMouseUp) then TogglePanelCorrected(a) else Step(a, i)
    case MenuShow => ShowPanelCorrected(a)
    case _ => Step(a, i)
  }

  function RunCorrected(a: App, inputs: seq<Input>): App
    decreases |inputs|
  {
    if inputs == [] then a else RunCorrected(StepCorrected(a, inputs[0]), inputs[1..])
  }

  ghost predicate NoLeak(a: App)
  {
    a.panel.Some? ==> FloatingPanel.NoLeak(a.panel.value)
  }

  ghost predicate Wellformed(a: App)
  {
    a.panel.Some? && FloatingPanel.Wellformed(a.panel.value)
  }

  ghost predicate Clean(a: App)
  {
    a.panel.Some? ==> FloatingPanel.Clean(a.panel.value)
  }

  // ---------------------------------------------------------------------------
  // Properties

  /** Two toggles in a row give back the original visibility. */
  lemma {:induction false} ToggleTwiceRestoresVisibility(a: App)
    ensures Visible(TogglePanel(TogglePanel(a))) == Visible(a)
  {
  }

  /** After `n` hotkey presses from a hidden panel, it is visible exactly when `n` is odd. */
  lemma {:induction false} ToggleParity(a: App, inputs: seq<Input>)
    requires a.panel.Some?
    requires forall k :: 0 <= k < |inputs| ==> inputs[k] == Hotkey
    ensures Run(a, inputs).panel.Some?
    ensures Visible(Run(a, inputs)) == (if |inputs| % 2 == 0 then Visible(a) else !Visible(a))
    decreases |inputs|
  {
    if inputs != [] {
      ToggleParity(TogglePanel(a), inputs[1..]);
    }
  }

  /**
   * Every input except the menu's unguarded "Show" and deactivation keeps
   * monitors installed exactly while the panel is visible.
   */
  lemma {:induction false} StepKeepsClean(a: App, i: Input)
    requires Clean(a)
    requires i != MenuShow && i != Deactivate
    ensures Clean(Step(a, i))
  {
    if a.panel.Some? {
      var p := a.panel.value;
      if i.Hotkey? || i.StatusClick? {
        if p.visible { FloatingPanel.CleanHide(p); } else { FloatingPanel.CleanShowHidden(p); }
      } else {
        assert Step(a, i) == App(Some(PanelStep(p, i)));
        PanelStepKeepsClean(p, i);
      }
    }
  }

  /**
   * Over a whole run of the application as written, only the menu's "Show" and
   * deactivation can break "monitors installed exactly while visible".
   */
  lemma {:induction false} RunKeepsClean(a: App, inputs: seq<Input>)
    requires Clean(a)
    requires forall k :: 0 <= k < |inputs| ==> inputs[k] != MenuShow && inputs[k] != Deactivate
    ensures Clean(Run(a, inputs))
    decreases |inputs|
  {
    if inputs != [] {
      StepKeepsClean(a, inputs[0]);
      RunKeepsClean(Step(a, inputs[0]), inputs[1..]);
    }
  }

  lemma {:induction false} PanelStepKeepsClean(p: FloatingPanel.State, i: Input)
    requires FloatingPanel.Clean(p)
    requires i.KeyDown? || i.MouseDown? || i.Edit? || i.Enter?
    ensures FloatingPanel.Clean(PanelStep(p, i))
  {
    match i
    case KeyDown(e) => FloatingPanel.CleanEvents(p, [], e, FloatingPanel.OtherButton);
    case MouseDown(b) => FloatingPanel.CleanEvents(p, [], FloatingPanel.KeyEvent(0), b);
    case Edit(t) =>
    case Enter =>
  }

  /** Every state the application reaches from launch is well formed. */
  lemma {:induction false} RunKeepsWellformed(a: App, inputs: seq<Input>)
    requires Wellformed(a)
    ensures Wellformed(Run(a, inputs))
    ensures Wellformed(RunCorrected(a, inputs))
    decreases |inputs|
  {
    if inputs != [] {
      StepKeepsWellformed(a, inputs[0]);
      RunKeepsWellformed(Step(a, inputs[0]), inputs[1..]);
      RunKeepsWellformed(StepCorrected(a, inputs[0]), inputs[1..]);
    }
  }

  lemma {:induction false} LaunchedRunsWellformed(inputs: seq<Input>)
    ensures Run(Launched, inputs).panel.Some?
    ensures FloatingPanel.Wellformed(Run(Launched, inputs).panel.value)
  {
    FloatingPanel.InitIsClean();
    RunKeepsWellformed(Launched, inputs);
  }

  lemma {:induction false} StepKeepsWellformed(a: App, i: Input)
    requires Wellformed(a)
    ensures Wellformed(Step(a, i)) && Wellformed(StepCorrected(a, i))
  {
    var p := a.panel.value;
    FloatingPanel.WellformedShow(p);
    FloatingPanel.WellformedHide(p);
    FloatingPanel.WellformedEvents(p, [], FloatingPanel.KeyEvent(0), FloatingPanel.OtherButton);
    if i.KeyDown? || i.MouseDown? || i.Edit? || i.Enter? || i.Deactivate? {
      assert Step(a, i) == App(Some(PanelStep(p, i)));
      PanelStepKeepsWellformed(p, i);
    }
  }

  lemma {:induction false} PanelStepKeepsWellformed(p: FloatingPanel.State, i: Input)
    requires FloatingPanel.Wellformed(p)
    requires i.KeyDown? || i.MouseDown? || i.Edit? || i.Enter? || i.Deactivate?
    ensures FloatingPanel.Wellformed(PanelStep(p, i))
  {
    match i
    case KeyDown(e) => FloatingPanel.WellformedEvents(p, [], e, FloatingPanel.OtherButton);
    case MouseDown(b) => FloatingPanel.WellformedEvents(p, [], FloatingPanel.KeyEvent(0), b);
    case Edit(t) =>
    case Enter =>
    case Deactivate => FloatingPanel.WellformedEvents(p, [], FloatingPanel.KeyEvent(0), FloatingPanel.OtherButton);
  }

  lemma {:induction false} StepCorrectedKeepsNoLeak(a: App, i: Input)
    requires NoLeak(a)
    ensures NoLeak(StepCorrected(a, i))
  {
    if a.panel.Some? {
      var p := a.panel.value;
      var hidden := FloatingPanel.Hide(p);
      var shown := FloatingPanel.ShowReinstalling(p);
      FloatingPanel.NoLeakPreserved(p, [], FloatingPanel.KeyEvent(0), FloatingPanel.OtherButton);
      if i.Hotkey? || i.MenuShow? || (i.StatusClick? && i.event.Some? && i.event != Some(RightMouseUp)) {
        assert StepCorrected(a, i) == App(Some(hidden)) || StepCorrected(a, i) == App(Some(shown));
      } else if i.StatusClick? {
        assert StepCorrected(a, i) == a;
      } else {
        assert StepCorrected(a, i) == App(Some(PanelStep(p, i)));
        PanelStepKeepsNoLeak(p, i);
      }
    }
  }

  lemma {:induction false} PanelStepKeepsNoLeak(p: FloatingPanel.State, i: Input)
    requires FloatingPanel.NoLeak(p)
    requires i.KeyDown? || i.MouseDown? || i.Edit? || i.Enter? || i.Deactivate?
    ensures FloatingPanel.NoLeak(PanelStep(p, i))
  {
    match i
    case KeyDown(e) => FloatingPanel.NoLeakPreserved(p, [], e, FloatingPanel.OtherButton);
    case MouseDown(b) => FloatingPanel.NoLeakPreserved(p, [], FloatingPanel.KeyEvent(0), b);
    case Edit(t) =>
    case Enter =>
    case Deactivate =>
  }

  /**
   * In the corrected application no input sequence, deactivation included,
   * ever leaves a monitor live that the panel cannot remove.
   */
  lemma {:induction false} CorrectedRunNoLeak(a: App, inputs: seq<Input>)
    requires NoLeak(a)
    ensures NoLeak(RunCorrected(a, inputs))
    decreases |inputs|
  {
    if inputs != [] {
      StepCorrectedKeepsNoLeak(a, inputs[0]);
      CorrectedRunNoLeak(StepCorrected(a, inputs[0]), inputs[1..]);
    }
  }

  /**
   * As written, choosing "Show" twice and then pressing the hotkey leaves the
   * panel hidden with a pair of monitors still live; the leaked key-down monitor
   * then swallows Escape although no panel is on screen.
   */
  lemma MenuShowTwiceLeaks()
    ensures var a := Run(Launched, [MenuShow, MenuShow, Hotkey]);
      && a.panel.Some?
      && !a.panel.value.visible
      && |a.panel.value.live| == 2
      && !Clean(a) && !NoLeak(a)
      && FloatingPanel.Handles(a.panel.value) == {}
      && FloatingPanel.HasLive(a.panel.value, FloatingPanel.KeyDownMonitor)
      && FloatingPanel.HasLive(a.panel.value, FloatingPanel.MouseDownMonitor)
      && FloatingPanel.LocalKeyDown(a.panel.value, FloatingPanel.KeyEvent(FloatingPanel.EscapeKeyCode)).passed == None
  {
    var p1 := FloatingPanel.Show(FloatingPanel.Init);
    var p3 := FloatingPanel.Hide(FloatingPanel.Show(p1));
    assert Run(Launched, [MenuShow, MenuShow, Hotkey]) == App(Some(p3));
    var leaked := FloatingPanel.Monitor(FloatingPanel.KeyDownMonitor, 0);
    assert p3.live == {leaked, FloatingPanel.Monitor(FloatingPanel.MouseDownMonitor, 1)};
    assert leaked in p3.live;
    assert FloatingPanel.Monitor(FloatingPanel.MouseDownMonitor, 1) in p3.live;
  }

  /**
   * As written, the hotkey alone leaks too: show, switch to another
   * application (the panel is ordered out, its monitors stay), show again
   * (the handles are overwritten), hide.
   */
  lemma DeactivateHotkeyLeaks()
    ensures var a := Run(Launched, [Hotkey, Deactivate, Hotkey, Hotkey]);
      && a.panel.Some?
      && !a.panel.value.visible
      && |a.panel.value.live| == 2
      && !NoLeak(a)
      && FloatingPanel.Handles(a.panel.value) == {}
      && FloatingPanel.HasLive(a.panel.value, FloatingPanel.KeyDownMonitor)
      && FloatingPanel.HasLive(a.panel.value, FloatingPanel.MouseDownMonitor)
  {
    var p1 := FloatingPanel.Show(FloatingPanel.Init);
    var p2 := FloatingPanel.Deactivate(p1);
    var p3 := FloatingPanel.Show(p2);
    var p4 := FloatingPanel.Hide(p3);
    var inputs := [Hotkey, Deactivate, Hotkey, Hotkey];
    assert Step(Launched, Hotkey) == App(Some(p1));
    assert Step(App(Some(p1)), Deactivate) == App(Some(p2));
    assert Step(App(Some(p2)), Hotkey) == App(Some(p3));
    assert Step(App(Some(p3)), Hotkey) == App(Some(p4));
    assert Run(App(Some(p4)), inputs[4..]) == App(Some(p4));
    assert Run(Launched, inputs) == App(Some(p4));
    var leaked := FloatingPanel.Monitor(FloatingPanel.KeyDownMonitor, 0);
    assert p4.live == {leaked, FloatingPanel.Monitor(FloatingPanel.MouseDownMonitor, 1)};
    assert leaked in p4.live;
    assert FloatingPanel.Monitor(FloatingPanel.MouseDownMonitor, 1) in p4.live;
  }

  /** The corrected application runs both sequences without leaving a monitor live. */
  lemma CorrectedSequencesAreClean()
    ensures var a := RunCorrected(Launched, [MenuShow, MenuShow, Hotkey]);
      a.panel.Some? && !a.panel.value.visible && a.panel.value.live == {}
    ensures var a := RunCorrected(Launched, [Hotkey, Deactivate, Hotkey, Hotkey]);
      a.panel.Some? && !a.panel.value.visible && a.panel.value.live == {}
  {
    var init := FloatingPanel.Init;
    var s1 := FloatingPanel.ShowReinstalling(init);
    var s2 := FloatingPanel.ShowReinstalling(s1);
    assert RunCorrected(Launched, [MenuShow, MenuShow, Hotkey]) == App(Some(FloatingPanel.Hide(s2)));
    var d := FloatingPanel.ShowReinstalling(FloatingPanel.Deactivate(s1));
    assert RunCorrected(Launched, [Hotkey, Deactivate, Hotkey, Hotkey]) == App(Some(FloatingPanel.Hide(d)));
  }
}

=== FILE: config.dfy ===
/**
 * Resolution of the webhook URL: the Info.plist value, then the process
 * environment value, then a placeholder. Both look-ups are inputs; a plist
 * entry that is not a string is passed in as `None`.
 */
module Config {

  import opened Wrappers

  const PlaceholderUrl := "YOUR_WEBHOOK_URL_HERE"

  /** What Info.plist holds when the build setting was never expanded. */
  const UnexpandedSetting := "$(DISCORD_WEBHOOK_URL)"

  datatype Source = InfoPlist | Environment | Placeholder

  datatype Resolved = Resolved(source: Source, url: string)

  predicate PlistUsable(plist: Option<string>)
  {
    plist.Some? && plist.value != "" && plist.value != UnexpandedSetting
  }

  predicate EnvUsable(env: Option<string>)
  {
    env.Some? && env.value != ""
  }

  /** The source chosen is the first usable one, in the fixed order plist, environment, placeholder. */
  function WebhookUrl(plist: Option<string>, env: Option<string>): (r: Resolved)
    ensures r.url != []
    ensures r.source == InfoPlist <==> PlistUsable(plist)
    ensures r.source == Environment <==> !PlistUsable(plist) && EnvUsable(env)
    ensures r.source == Placeholder <==> !PlistUsable(plist) && !EnvUsable(env)
    ensures r.source == InfoPlist ==> plist == Some(r.url)
    ensures r.source == Environment ==> env == Some(r.url)
    ensures r.source == Placeholder ==> r.url == PlaceholderUrl
  {
    if PlistUsable(plist) then Resolved(InfoPlist, plist.value)
    else if EnvUsable(env) then Resolved(Environment, env.value)
    else Resolved(Placeholder, PlaceholderUrl)
  }

  /** A usable plist value wins whatever the environment says. */
  lemma {:induction false} PlistOverridesEnv(plist: Option<string>, env1: Option<string>, env2: Option<string>)
    requires PlistUsable(plist)
    ensures WebhookUrl(plist, env1) == WebhookUrl(plist, env2) == Resolved(InfoPlist, plist.value)
  {
  }

  /** An absent, empty or unexpanded plist value is never the source of the URL. */
  lemma {:induction false} RejectedPlistNeverUsed(plist: Option<string>, env: Option<string>)
    requires plist.None? || plist == Some("") || plist == Some(UnexpandedSetting)
    ensures WebhookUrl(plist, env).source != InfoPlist
    ensures env.Some? && env.value != "" ==> WebhookUrl(plist, env) == Resolved(Environment, env.value)
  {
  }

  /** The result is always one of the three candidates. */
  lemma {:induction false} ResolvedIsCandidate(plist: Option<string>, env: Option<string>)
    ensures var u := WebhookUrl(plist, env).url;
      Some(u) == plist || Some(u) == env || u == PlaceholderUrl
  {
  }
}

=== FILE: discord_service.dfy ===
/**
 * `DiscordService.post(message:)`: the server URL must parse, then one POST of
 * `{text, secret}` is made and its result is classified for the log. The URL,
 * whether it parses, and the secret are parameters: their definitions are not
 * part of this model.
 */
module DiscordService {

  import opened Wrappers
  import Http

  /** The log line the post ends with. */
  datatype Outcome =
    | BadUrl(url: string)
    | Sent(message: string)
    | Unauthorized
    | Status(code: int)
    | NetworkError(reason: string)

  /** The requests issued (at most one) and the outcome logged, if any. */
  datatype Attempt = Attempt(requests: seq<Http.Request>, outcome: Option<Outcome>)

  /** Classification of an HTTP status: only 200 is success and only 401 is singled out. */
  function Classify(message: string, status: int): (o: Outcome)
    ensures o.Sent? <==> status == 200
    ensures o.Unauthorized? <==> status == 401
    ensures o.Status? <==> status != 200 && status != 401
    ensures o.Sent? ==> o.message == message
    ensures o.Status? ==> o.code == status
  {
    if status == 200 then Sent(message)
    else if status == 401 then Unauthorized
    else Status(status)
  }

  function Post(serverUrl: string, urlParses: bool, secret: string, message: string, transport: Http.Transport): (r: Attempt)
    ensures !urlParses ==> r == Attempt([], Some(BadUrl(serverUrl)))
    ensures urlParses ==> r.requests == [Http.JsonPost(serverUrl, Http.Payload(message, secret))]
    ensures urlParses ==>
      && |r.requests| == 1
      && r.requests[0].httpMethod == "POST"
      && r.requests[0].contentType == "application/json"
      && r.requests[0].timeoutSeconds == Http.TimeoutSeconds
      && r.requests[0].url == serverUrl
      && r.requests[0].body.Keys == {"text", "secret"}
      && r.requests[0].body["text"] == message
      && r.requests[0].body["secret"] == secret
    ensures transport.TransportError? && urlParses ==> r.outcome == Some(NetworkError(transport.reason))
    ensures transport.NonHttpResponse? && urlParses ==> r.outcome == None
    ensures transport.HttpResponse? && urlParses ==> r.outcome == Some(Classify(message, transport.status))
  {
    if !urlParses then Attempt([], Some(BadUrl(serverUrl)))
    else
      var request := Http.JsonPost(serverUrl, Http.Payload(message, secret));
      match transport
      case HttpResponse(status, _) => Attempt([request], Some(Classify(message, status)))
      case NonHttpResponse => Attempt([request], None)
      case TransportError(reason) => Attempt([request], Some(NetworkError(reason)))
  }

  /** Classification loses nothing: distinct statuses give distinct outcomes. */
  lemma {:induction false} ClassifyInjective(message: string, s1: int, s2: int)
    ensures Classify(message, s1) == Classify(message, s2) <==> s1 == s2
  {
  }
}

=== FILE: floating_panel.dfy ===
/**
 * The overlay panel: visibility, the two event-monitor handles, the system's set
 * of live monitors, the `panelWillShow` notifications posted, the texts handed
 * to the delivery service, and the hosted search field.
 *
 * Modelled as written: `Show` checks nothing and overwrites the monitor handles,
 * so showing a visible panel leaks the previous pair of monitors, which stay live
 * and keep calling `Hide`.
 */
module FloatingPanel {

  import opened Wrappers
  import opened Text
  import SearchBar
  import Http
  import DiscordService

  datatype MonitorKind = KeyDownMonitor | MouseDownMonitor

  /** A monitor registered with the system; `id` stands for the opaque handle NSEvent returns. */
  datatype Monitor = Monitor(kind: MonitorKind, id: nat)

  datatype State = State(
    visible: bool,
    localMonitor: Option<Monitor>,
    globalMonitor: Option<Monitor>,
    live: set<Monitor>,       // every monitor the system currently calls back
    nextId: nat,              // the system hands out handles it has never handed out before
    willShowPosts: nat,       // `panelWillShow` notifications posted so far
    posts: seq<string>,       // texts dispatched to the delivery service, in order
    view: SearchBar.View)

  datatype KeyEvent = KeyEvent(keyCode: int)

  datatype MouseButton = LeftButton | RightButton | OtherButton

  /** Result of the local key-down monitors: the new state and the event passed on, if any. */
  datatype KeyResult = KeyResult(state: State, passed: Option<KeyEvent>)

  const EscapeKeyCode := 53

  const Init := State(false, None, None, {}, 0, 0, [], SearchBar.Empty)

  /** The monitors the panel still holds handles for. */
  function Handles(p: State): (h: set<Monitor>)
    ensures p.localMonitor.None? && p.globalMonitor.None? <==> h == {}
  {
    (if p.localMonitor.Some? then {p.localMonitor.value} else {})
    + (if p.globalMonitor.Some? then {p.globalMonitor.value} else {})
  }

  /** The system hands out fresh handles, and the panel's handles are live and of the right kind. */
  ghost predicate Wellformed(p: State)
  {
    && (forall m :: m in p.live ==> m.id < p.nextId)
    && Handles(p) <= p.live
    && (p.localMonitor.Some? ==> p.localMonitor.value.kind == KeyDownMonitor)
    && (p.globalMonitor.Some? ==> p.globalMonitor.value.kind == MouseDownMonitor)
  }

  /**
   * Monitors are meant to be installed exactly while the panel is visible, and
   * no monitor is meant to outlive its handle.
   */
  ghost predicate Clean(p: State)
  {
    && p.live == Handles(p)
    && (p.visible <==> p.localMonitor.Some?)
    && (p.localMonitor.Some? <==> p.globalMonitor.Some?)
  }

  /** No monitor outlives its handle: every live monitor is one the panel can still remove. */
  ghost predicate NoLeak(p: State)
  {
    p.live == Handles(p)
  }

  predicate HasLive(p: State, kind: MonitorKind)
  {
    exists m :: m in p.live && m.kind == kind
  }

  function LiveCount(p: State, kind: MonitorKind): (n: nat)
    ensures n > 0 <==> HasLive(p, kind)
  {
    var ms := set m | m in p.live && m.kind == kind;
    LiveOfKind(p, kind, ms);
    |ms|
  }

  /** The live monitors of one kind are non-empty exactly when one of that kind is live. */
  lemma LiveOfKind(p: State, kind: MonitorKind, ms: set<Monitor>)
    requires ms == set m | m in p.live && m.kind == kind
    ensures ms != {} <==> HasLive(p, kind)
  {
    if HasLive(p, kind) {
      var m :| m in p.live && m.kind == kind;
      assert m in ms;
    }
  }

  /**
   * `showPanel`: bring to front, post `panelWillShow` (whose handler clears the
   * field), then install a new local and a new global monitor, overwriting the
   * handles without removing what they held.
   */
  function Show(p: State): (r: State)
    ensures r.visible
    ensures r.localMonitor.Some? && r.localMonitor.value.kind == KeyDownMonitor
    ensures r.globalMonitor.Some? && r.globalMonitor.value.kind == MouseDownMonitor
    ensures r.live == p.live + Handles(r)
    ensures r.willShowPosts == p.willShowPosts + 1
    ensures r.view.text == []
    ensures r.posts == p.posts
  {
    var local := Monitor(KeyDownMonitor, p.nextId);
    var global := Monitor(MouseDownMonitor, p.nextId + 1);
    p.(visible := true,
       willShowPosts := p.willShowPosts + 1,
       view := SearchBar.OnPanelWillShow(p.view),
       localMonitor := Some(local),
       globalMonitor := Some(global),
       live := p.live + {local, global},
       nextId := p.nextId + 2)
  }

  /**
   * Corrected `showPanel`: `installEventMonitors` first removes the monitors the
   * handles still hold, so installing never leaves an earlier pair live.
   */
  function ShowReinstalling(p: State): (r: State)
    ensures r.visible
    ensures r.localMonitor.Some? && r.localMonitor.value.kind == KeyDownMonitor
    ensures r.globalMonitor.Some? && r.globalMonitor.value.kind == MouseDownMonitor
    ensures r.live == (p.live - Handles(p)) + Handles(r)
    ensures r.willShowPosts == p.willShowPosts + 1 && r.view.text == [] && r.posts == p.posts
  {
    Show(RemoveMonitors(p))
  }

  /** `removeEventMonitors`: remove whichever monitors the handles hold and clear the handles. */
  function RemoveMonitors(p: State): (r: State)
    ensures r.localMonitor.None? && r.globalMonitor.None?
    ensures r.live == p.live - Handles(p)
    ensures r.visible == p.visible && r.nextId == p.nextId && r.willShowPosts == p.willShowPosts
    ensures r.posts == p.posts && r.view == p.view
  {
    var afterLocal := if p.localMonitor.Some? then p.live - {p.localMonitor.value} else p.live;
    var afterGlobal :=
      if p.globalMonitor.Some? then afterLocal - {p.globalMonitor.value} else afterLocal;
    p.(localMonitor := None, globalMonitor := None, live := afterGlobal)
  }

  /** `hidePanel`: remove the monitors, then order the panel out. */
  function Hide(p: State): (r: State)
    ensures !r.visible
    ensures r.localMonitor.None? && r.globalMonitor.None?
    ensures r.live == p.live - Handles(p)
    ensures r.nextId == p.nextId && r.willShowPosts == p.willShowPosts
    ensures r.posts == p.posts && r.view == p.view
  {
    RemoveMonitors(p).(visible := false)
  }

  /**
   * The application stops being active (Cmd-Tab, say). An `NSPanel` hides on
   * deactivation unless told otherwise, and this one is not: it is ordered out
   * without `hidePanel`, so its monitors stay installed and its handles stay set.
   */
  function Deactivate(p: State): (r: State)
    ensures !r.visible
    ensures r.localMonitor == p.localMonitor && r.globalMonitor == p.globalMonitor
    ensures r.live == p.live && r.nextId == p.nextId
    ensures r.willShowPosts == p.willShowPosts && r.posts == p.posts && r.view == p.view
  {
    p.(visible := false)
  }

  /**
   * `submit(text:)`: blank text is ignored; otherwise hide first, then hand the
   * trimmed text to the delivery service.
   */
  function Submit(p: State, text: string): (r: State)
    ensures AllWhitespace(text) ==> r == p
    ensures !AllWhitespace(text) ==>
      && !r.visible
      && r.localMonitor.None? && r.globalMonitor.None?
      && r.live == p.live - Handles(p)
      && r.nextId == p.nextId && r.willShowPosts == p.willShowPosts && r.view == p.view
      && |r.posts| == |p.posts| + 1
      && r.posts[..|p.posts|] == p.posts
      && IsTrimOf(r.posts[|p.posts|], text)
  {
    var trimmed := Trim(text);
    if trimmed == [] then p
    else
      var hidden := Hide(p);
      hidden.(posts := hidden.posts + [trimmed])
  }

  /**
   * A key-down seen by the live local monitors. Each one hides the panel and
   * consumes Escape; any other key is returned untouched. With no live local
   * monitor the event reaches the field as it is.
   */
  function LocalKeyDown(p: State, e: KeyEvent): (r: KeyResult)
    ensures HasLive(p, KeyDownMonitor) && e.keyCode == EscapeKeyCode ==>
      r.passed == None && r.state == Hide(p)
    ensures !(HasLive(p, KeyDownMonitor) && e.keyCode == EscapeKeyCode) ==>
      r.passed == Some(e) && r.state == p
  {
    if HasLive(p, KeyDownMonitor) && e.keyCode == EscapeKeyCode then KeyResult(Hide(p), None)
    else KeyResult(p, Some(e))
  }

  /** `hidePanel` called `k` times in a row. */
  function RepeatHide(p: State, k: nat): State
    decreases k
  {
    if k == 0 then p else RepeatHide(Hide(p), k - 1)
  }

  /**
   * A mouse-down delivered to another application: every live global monitor
   * matching left or right mouse-down calls `hidePanel`.
   */
  function GlobalMouseDown(p: State, b: MouseButton): (r: State)
    ensures b != OtherButton && HasLive(p, MouseDownMonitor) ==> r == Hide(p)
    ensures b == OtherButton || !HasLive(p, MouseDownMonitor) ==> r == p
  {
    if b == OtherButton then p
    else
      var n := LiveCount(p, MouseDownMonitor);
      if n > 0 then RepeatHideIsHide(p, n); RepeatHide(p, n) else p
  }

  // ---------------------------------------------------------------------------
  // Properties

  /** Hiding twice is hiding once: the second call removes nothing and changes nothing. */
  lemma HideIdempotent(p: State)
    ensures Hide(Hide(p)) == Hide(p)
    ensures Handles(Hide(p)) == {}
  {
  }

  /** However many live monitors call `hidePanel`, the effect is one hide. */
  lemma {:induction false} RepeatHideIsHide(p: State, k: nat)
    requires k > 0
    ensures RepeatHide(p, k) == Hide(p)
    decreases k
  {
    if k > 1 {
      RepeatHideIsHide(Hide(p), k - 1);
      HideIdempotent(p);
    }
  }

  /** Show installs two monitors the system never handed out before. */
  lemma ShowInstallsFresh(p: State)
    requires Wellformed(p)
    ensures Handles(Show(p)) !! p.live
    ensures |Show(p).live| == |p.live| + 2
  {
    var r := Show(p);
    assert Handles(r) == {r.localMonitor.value, r.globalMonitor.value};
  }

  /** From a state holding no handles, show then hide leaves the live monitors as they were. */
  lemma {:induction false} ShowHideRestoresLive(p: State)
    requires Wellformed(p)
    requires Handles(p) == {}
    ensures Hide(Show(p)).live == p.live
    ensures !Hide(Show(p)).visible
  {
    ShowInstallsFresh(p);
  }

  /**
   * Show, show, hide: the first pair of monitors is never removed, and two
   * `panelWillShow` notifications were posted.
   */
  lemma {:induction false} ShowShowHideLeaks(p: State)
    requires Wellformed(p)
    requires Handles(p) == {}
    ensures var r := Hide(Show(Show(p)));
      && |r.live| == |p.live| + 2
      && r.live - p.live == Handles(Show(p))
      && r.willShowPosts == p.willShowPosts + 2
      && HasLive(r, KeyDownMonitor) && HasLive(r, MouseDownMonitor)
  {
    var s1 := Show(p);
    var s2 := Show(s1);
    ShowInstallsFresh(p);
    WellformedShow(p);
    ShowInstallsFresh(s1);
    var r := Hide(s2);
    assert r.live == s1.live;
    assert s1.localMonitor.value in r.live && s1.globalMonitor.value in r.live;
  }

  /**
   * What a submit dispatches reaches `DiscordService.post` as the payload's
   * `text`: non-empty and free of edge whitespace.
   */
  lemma {:induction false} DispatchedPayloadIsTrimmed(
    p: State, text: string, serverUrl: string, secret: string, transport: Http.Transport)
    requires !AllWhitespace(text)
    ensures var sent := Submit(p, text).posts[|p.posts|];
      var attempt := DiscordService.Post(serverUrl, true, secret, sent, transport);
      && attempt.requests[0].body["text"] == sent
      && sent != [] && Bare(sent)
      && Trim(sent) == sent
  {
    TrimIdempotent(text);
  }

  // ---------------------------------------------------------------------------
  // Invariants

  lemma InitIsClean()
    ensures Wellformed(Init) && Clean(Init) && NoLeak(Init)
  {
  }

  lemma WellformedShow(p: State)
    requires Wellformed(p)
    ensures Wellformed(Show(p))
  {
  }

  lemma WellformedHide(p: State)
    requires Wellformed(p)
    ensures Wellformed(Hide(p))
  {
  }

  /** Hiding always ends clean when the only live monitors were the panel's own. */
  lemma CleanHide(p: State)
    requires p.live == Handles(p)
    ensures Clean(Hide(p))
  {
  }

  /** Showing a hidden, clean panel stays clean. */
  lemma CleanShowHidden(p: State)
    requires Clean(p) && !p.visible
    ensures Clean(Show(p))
  {
  }

  /** Showing an already visible panel breaks the invariant: the old monitors leak. */
  lemma {:induction false} ShowVisibleBreaksClean(p: State)
    requires Wellformed(p) && Clean(p) && p.visible
    ensures !Clean(Show(p))
  {
    ShowInstallsFresh(p);
    assert p.localMonitor.value in Show(p).live;
    assert p.localMonitor.value !in Handles(Show(p));
  }

  lemma {:induction false} WellformedEvents(p: State, text: string, e: KeyEvent, b: MouseButton)
    requires Wellformed(p)
    ensures Wellformed(Deactivate(p))
    ensures Wellformed(ShowReinstalling(p))
    ensures Wellformed(Submit(p, text))
    ensures Wellformed(LocalKeyDown(p, e).state)
    ensures Wellformed(GlobalMouseDown(p, b))
  {
    WellformedHide(p);
    WellformedShow(RemoveMonitors(p));
  }

  /**
   * Deactivation hides a visible panel without removing its monitors, so the
   * next show, which sees a hidden panel, overwrites live handles.
   */
  lemma {:induction false} DeactivateThenShowLeaks(p: State)
    requires Wellformed(p) && Clean(p) && p.visible
    ensures !Deactivate(p).visible
    ensures !NoLeak(Show(Deactivate(p)))
  {
    var q := Show(Deactivate(p));
    ShowInstallsFresh(Deactivate(p));
    assert p.localMonitor.value in q.live;
    assert p.localMonitor.value !in Handles(q);
  }

  /** With the corrected show, every panel transition keeps every live monitor removable. */
  lemma {:induction false} NoLeakPreserved(p: State, text: string, e: KeyEvent, b: MouseButton)
    requires NoLeak(p)
    ensures NoLeak(Hide(p)) && NoLeak(Deactivate(p)) && NoLeak(ShowReinstalling(p))
    ensures NoLeak(Submit(p, text))
    ensures NoLeak(LocalKeyDown(p, e).state)
    ensures NoLeak(GlobalMouseDown(p, b))
  {
    assert Handles(Hide(p)) == {};
    assert Handles(RemoveMonitors(p)) == {};
  }

  lemma {:induction false} CleanEvents(p: State, text: string, e: KeyEvent, b: MouseButton)
    requires Clean(p)
    ensures Clean(Submit(p, text))
    ensures Clean(LocalKeyDown(p, e).state)
    ensures Clean(GlobalMouseDown(p, b))
  {
    CleanHide(p);
  }
}

=== FILE: http.dfy ===
/**
 * What the two delivery services share: the JSON request they build and the
 * result of the single transport attempt, which is an input (the network is
 * not modelled).
 */
module Http {

  import opened Wrappers

  /** Result of `URLSession.data(for:)`: a response, a non-HTTP response, or a thrown error. */
  datatype Transport =
    | HttpResponse(status: int, channel: Option<string>)   // `channel`: a string field of the JSON body, if any
    | NonHttpResponse
    | TransportError(reason: string)

  datatype Request = Request(
    httpMethod: string,
    contentType: string,
    timeoutSeconds: nat,
    url: string,
    body: map<string, string>)

  const TimeoutSeconds: nat := 10

  /** The two-key JSON object both services send. */
  function Payload(text: string, secret: string): (m: map<string, string>)
    ensures m.Keys == {"text", "secret"}
    ensures m["text"] == text && m["secret"] == secret
  {
    map["text" := text, "secret" := secret]
  }

  /** A POST of `body` as JSON with the ten-second timeout. */
  function JsonPost(url: string, body: map<string, string>): (r: Request)
    ensures r.httpMethod == "POST" && r.contentType == "application/json"
    ensures r.timeoutSeconds == TimeoutSeconds && r.url == url && r.body == body
  {
    Request("POST", "application/json", TimeoutSeconds, url, body)
  }

  /** The payload keeps both fields apart: text and secret can be read back unchanged. */
  lemma {:induction false} PayloadRoundTrip(t1: string, s1: string, t2: string, s2: string)
    ensures Payload(t1, s1) == Payload(t2, s2) <==> t1 == t2 && s1 == s2
  {
    if Payload(t1, s1) == Payload(t2, s2) {
      assert Payload(t1, s1)["text"] == Payload(t2, s2)["text"];
      assert Payload(t1, s1)["secret"] == Payload(t2, s2)["secret"];
    }
  }
}

=== FILE: search_bar.dfy ===
/**
 * The text field hosted in the overlay: one piece of state, `text`, a submit
 * handler guarded by trim-and-non-empty, and the handler for the notification
 * the panel posts each time it is shown.
 */
module SearchBar {

  import opened Wrappers
  import opened Text

  datatype View = View(text: string)

  /** The view after a submit, and the argument the `onSubmit` callback received, if it was called. */
  datatype SubmitResult = SubmitResult(view: View, forwarded: Option<string>)

  const Empty := View("")

  function HandleSubmit(v: View): (r: SubmitResult)
    ensures r.forwarded.None? <==> AllWhitespace(v.text)
    ensures r.forwarded.None? ==> r.view == v
    ensures r.forwarded.Some? ==>
      && IsTrimOf(r.forwarded.value, v.text)
      && r.view.text == []
  {
    var trimmed := Trim(v.text);
    if trimmed == [] then SubmitResult(v, None)
    else SubmitResult(Empty, Some(trimmed))
  }

  /** Receiving `panelWillShow` clears the field (the delayed focus claim is not modelled). */
  function OnPanelWillShow(v: View): (r: View)
    ensures r.text == []
  {
    Empty
  }

  /**
   * What the view hands on is non-empty, has no edge whitespace, and is a fixed
   * point of trimming, so the panel's own trim guard always lets it through
   * unchanged.
   */
  lemma {:induction false} ForwardedPassesPanelGuard(v: View)
    requires HandleSubmit(v).forwarded.Some?
    ensures var t := HandleSubmit(v).forwarded.value;
      t != [] && Bare(t) && Trim(t) == t
  {
    var t := HandleSubmit(v).forwarded.value;
    assert t == Trim(v.text);
    TrimIdempotent(v.text);
  }

}

=== FILE: side_quest_service.dfy ===
/**
 * `SideQuestService.post(text:)`: one POST of `{text, secret}` with the fixed
 * endpoint and secret; 200 and 201 are success and log the channel the server
 * names, every other status is a server error.
 */
module SideQuestService {

  import opened Wrappers
  import Http
  import DiscordService

  const Endpoint := "http://3.145.73.180:4141/sq"
  const Secret := "roux-sq-secret"

  datatype Outcome =
    | Created(channel: string)
    | ServerError(code: int)
    | NetworkError(reason: string)

  datatype Attempt = Attempt(requests: seq<Http.Request>, outcome: Option<Outcome>)

  predicate IsSuccess(status: int)
  {
    status == 200 || status == 201
  }

  /** A success logs the channel if the body names one, and nothing otherwise. */
  function Classify(status: int, channel: Option<string>): (o: Option<Outcome>)
    ensures IsSuccess(status) && channel.Some? ==> o == Some(Created(channel.value))
    ensures IsSuccess(status) && channel.None? ==> o == None
    ensures !IsSuccess(status) ==> o == Some(ServerError(status))
  {
    if IsSuccess(status) then
      match channel
      case Some(c) => Some(Created(c))
      case None => None
    else Some(ServerError(status))
  }

  /** `endpointParses` stands for `URL(string:)` on the fixed endpoint; when it fails the post silently returns. */
  function Post(endpointParses: bool, text: string, transport: Http.Transport): (r: Attempt)
    ensures !endpointParses ==> r == Attempt([], None)
    ensures endpointParses ==> r.requests == [Http.JsonPost(Endpoint, Http.Payload(text, Secret))]
    ensures endpointParses ==>
      && |r.requests| == 1
      && r.requests[0].httpMethod == "POST"
      && r.requests[0].contentType == "application/json"
      && r.requests[0].timeoutSeconds == Http.TimeoutSeconds
      && r.requests[0].url == Endpoint
      && r.requests[0].body.Keys == {"text", "secret"}
      && r.requests[0].body["text"] == text
      && r.requests[0].body["secret"] == Secret
    ensures transport.TransportError? && endpointParses ==> r.outcome == Some(NetworkError(transport.reason))
    ensures transport.NonHttpResponse? ==> r.outcome == None
    ensures endpointParses && transport.HttpResponse? ==>
      r.outcome == Classify(transport.status, transport.channel)
  {
    if !endpointParses then Attempt([], None)
    else
      var request := Http.JsonPost(Endpoint, Http.Payload(text, Secret));
      match transport
      case HttpResponse(status, channel) => Attempt([request], Classify(status, channel))
      case NonHttpResponse => Attempt([request], None)
      case TransportError(reason) => Attempt([request], Some(NetworkError(reason)))
  }

  /**
   * The two services classify every status differently except 200: 201 is
   * success only here, 401 is singled out only by `DiscordService`, and every
   * other code is a plain error in both, carrying the code.
   */
  lemma {:induction false} DisagreesWithDiscord(message: string, status: int, channel: Option<string>)
    ensures status == 201 ==>
      && Classify(status, channel) == (if channel.Some? then Some(Created(channel.value)) else None)
      && DiscordService.Classify(message, status) == DiscordService.Status(201)
    ensures status == 401 ==>
      && Classify(status, channel) == Some(ServerError(401))
      && DiscordService.Classify(message, status) == DiscordService.Unauthorized
    ensures status != 200 && status != 201 && status != 401 ==>
      && Classify(status, channel) == Some(ServerError(status))
      && DiscordService.Classify(message, status) == DiscordService.Status(status)
    ensures (IsSuccess(status) && DiscordService.Classify(message, status).Sent?) <==> status == 200
  {
  }

  /**
   * The post logs nothing exactly when the endpoint does not parse, the
   * response is not HTTP, or a success carries no channel.
   */
  lemma {:induction false} SilentPost(endpointParses: bool, text: string, transport: Http.Transport)
    ensures Post(endpointParses, text, transport).outcome == None <==>
      || !endpointParses
      || transport.NonHttpResponse?
      || (transport.HttpResponse? && IsSuccess(transport.status) && transport.channel.None?)
  {
  }

  /** A logged channel is always the one the server's body named, after a success. */
  lemma {:induction false} CreatedOnlyOnSuccess(endpointParses: bool, text: string, transport: Http.Transport)
    requires Post(endpointParses, text, transport).outcome.Some?
    requires Post(endpointParses, text, transport).outcome.value.Created?
    ensures endpointParses && transport.HttpResponse? && IsSuccess(transport.status)
    ensures transport.channel == Some(Post(endpointParses, text, transport).outcome.value.channel)
  {
  }
}

=== FILE: text.dfy ===
/**
 * Trimming as done by `String.trimmingCharacters(in: .whitespacesAndNewlines)`.
 * The character set is Foundation's `whitespacesAndNewlines`: general category Zs,
 * CHARACTER TABULATION, the line separators U+000A..U+000D, U+0085, U+2028, U+2029
 * (together, exactly the Unicode White_Space property).
 */
module Text {

  predicate IsWhitespace(c: char)
  {
    || ('\U{0009}' <= c <= '\U{000D}')
    || c == ' '
    || c == '\U{0085}'
    || c == '\U{00A0}'
    || c == '\U{1680}'
    || ('\U{2000}' <= c <= '\U{200A}')
    || c == '\U{2028}'
    || c == '\U{2029}'
    || c == '\U{202F}'
    || c == '\U{205F}'
    || c == '\U{3000}'
  }

  predicate AllWhitespace(s: string)
  {
    forall i :: 0 <= i < |s| ==> IsWhitespace(s[i])
  }

  /** No whitespace at either end (vacuously true of the empty string). */
  predicate Bare(s: string)
  {
    |s| > 0 ==> !IsWhitespace(s[0]) && !IsWhitespace(s[|s| - 1])
  }

  /**
   * Declarative reference: `r` is what is left of `s` after cutting a whitespace
   * prefix and a whitespace suffix, and nothing more can be cut.
   */
  ghost predicate IsTrimOf(r: string, s: string)
  {
    exists i, j :: 0 <= i <= j <= |s| && r == s[i..j]
      && AllWhitespace(s[..i]) && AllWhitespace(s[j..]) && Bare(r)
  }

  /** Length of the longest whitespace prefix. */
  function LeadingWhitespace(s: string): (n: nat)
    ensures n <= |s|
    ensures AllWhitespace(s[..n])
    ensures n < |s| ==> !IsWhitespace(s[n])
  {
    if |s| > 0 && IsWhitespace(s[0]) then
      var m := LeadingWhitespace(s[1..]);
      PrefixExtends(s, m);
      1 + m
    else
      0
  }

  /** Length of the longest whitespace suffix. */
  function TrailingWhitespace(s: string): (n: nat)
    ensures n <= |s|
    ensures AllWhitespace(s[|s| - n..])
    ensures n < |s| ==> !IsWhitespace(s[|s| - n - 1])
  {
    if |s| > 0 && IsWhitespace(s[|s| - 1]) then
      var m := TrailingWhitespace(s[..|s| - 1]);
      SuffixExtends(s, m);
      1 + m
    else
      0
  }

  /** A whitespace character followed by a whitespace prefix of the rest is a longer whitespace prefix. */
  lemma PrefixExtends(s: string, m: nat)
    requires 0 < |s| && IsWhitespace(s[0])
    requires m <= |s| - 1 && AllWhitespace(s[1..][..m])
    ensures AllWhitespace(s[..1 + m])
  {
    forall k | 1 <= k < 1 + m
      ensures IsWhitespace(s[k])
    {
      assert s[k] == s[1..][..m][k - 1];
    }
  }

  /** A whitespace suffix of all but the last character, then a whitespace last character, is a longer whitespace suffix. */
  lemma SuffixExtends(s: string, m: nat)
    requires 0 < |s| && IsWhitespace(s[|s| - 1])
    requires m <= |s| - 1 && AllWhitespace(s[..|s| - 1][|s| - 1 - m..])
    ensures AllWhitespace(s[|s| - (1 + m)..])
  {
    var t := s[..|s| - 1];
    forall k | |s| - (1 + m) <= k < |s| - 1
      ensures IsWhitespace(s[k])
    {
      assert s[k] == t[|t| - m..][k - (|s| - (1 + m))];
    }
  }

  function Trim(s: string): (r: string)
    ensures Bare(r)
    ensures IsTrimOf(r, s)
    ensures r == [] <==> AllWhitespace(s)
  {
    var i := LeadingWhitespace(s);
    var t := s[i..];
    var j := i + (|t| - TrailingWhitespace(t));
    TrimSpan(s, i, j);
    s[i..j]
  }

  /** The span `Trim` cuts out satisfies the reference. */
  lemma TrimSpan(s: string, i: nat, j: int)
    requires i == LeadingWhitespace(s)
    requires j == i + (|s[i..]| - TrailingWhitespace(s[i..]))
    ensures 0 <= i <= j <= |s|
    ensures Bare(s[i..j]) && AllWhitespace(s[..i]) && AllWhitespace(s[j..])
    ensures IsTrimOf(s[i..j], s)
    ensures s[i..j] == [] <==> AllWhitespace(s)
  {
    var t := s[i..];
    var k := TrailingWhitespace(t);
    assert t[..|t| - k] == s[i..j];
    assert s[j..] == t[|t| - k..];
    if i < j {
      assert s[i..j][0] == s[i];
      assert s[i..j][j - i - 1] == t[|t| - k - 1];
    }
    if i == j {
      assert i == |s|;
      assert s == s[..i];
    }
  }

  /** At most one string is a trimming of `s`: the reference pins `Trim` down. */
  lemma TrimUnique(s: string, r1: string, r2: string)
    requires IsTrimOf(r1, s) && IsTrimOf(r2, s)
    ensures r1 == r2
  {
    var i1, j1 :| 0 <= i1 <= j1 <= |s| && r1 == s[i1..j1]
      && AllWhitespace(s[..i1]) && AllWhitespace(s[j1..]) && Bare(r1);
    var i2, j2 :| 0 <= i2 <= j2 <= |s| && r2 == s[i2..j2]
      && AllWhitespace(s[..i2]) && AllWhitespace(s[j2..]) && Bare(r2);
    SpanUnique(s, i1, j1, i2, j2);
  }

  /** Two whitespace-bounded spans without edge whitespace are the same span, or both empty. */
  lemma SpanUnique(s: string, i1: int, j1: int, i2: int, j2: int)
    requires 0 <= i1 <= j1 <= |s| && 0 <= i2 <= j2 <= |s|
    requires AllWhitespace(s[..i1]) && AllWhitespace(s[j1..]) && Bare(s[i1..j1])
    requires AllWhitespace(s[..i2]) && AllWhitespace(s[j2..]) && Bare(s[i2..j2])
    ensures s[i1..j1] == s[i2..j2]
  {
    if i1 < j1 {
      SpanBounds(s, i1, j1, i2, j2);
    }
    if i2 < j2 {
      SpanBounds(s, i2, j2, i1, j1);
    }
  }

  /** A non-empty bare span lies inside every whitespace-bounded span of the same string. */
  lemma SpanBounds(s: string, i1: int, j1: int, i2: int, j2: int)
    requires 0 <= i1 < j1 <= |s| && 0 <= i2 <= j2 <= |s|
    requires Bare(s[i1..j1])
    requires AllWhitespace(s[..i2]) && AllWhitespace(s[j2..])
    ensures i2 <= i1 && j1 <= j2
  {
  }

  /** A string without edge whitespace is its own trimming. */
  lemma {:induction false} TrimBare(s: string)
    requires Bare(s)
    ensures Trim(s) == s
  {
    assert s[..0] == [] && s[|s|..] == [] && s[0..|s|] == s;
    assert IsTrimOf(s, s);
    TrimUnique(s, Trim(s), s);
  }

  lemma {:induction false} TrimIdempotent(s: string)
    ensures Trim(Trim(s)) == Trim(s)
  {
    TrimBare(Trim(s));
  }
}

=== FILE: wrappers.dfy ===
/** The optional value used wherever the source has a Swift optional. */
module Wrappers {

  datatype Option<+T> = None | Some(value: T)
}
